=== FILE: README.md ===
# random-discogs-item: cache synchronisation and selection, in Dafny

This project models the core of `random-discogs-item`, a small Go command that
mirrors a Discogs record collection into a local JSON cache file and then
prints one random record from a chosen group of folders. The model covers:

- **The remote collection client** (`getData.go`). Each HTTP exchange is
  replaced by the decoded response it would have produced, or by the failure
  it would have reported. Inputs are the collection summary (the `count`
  field), the folder list (the `folders` array), and a page function
  `(folderId, page) -> Result<Page>` for the paginated releases of a folder
  (module `Remote`).
- **The cache file** (`getCacheLength`, `getRecordsFromCache` and the write
  at the end of `updateCache`). The file is modelled by what decoding it
  yields: missing, corrupt, or a stored record list (module `CacheStore`).
- **The rebuild decision and the rebuild** (`main` lines 71-80, `updateCache`),
  in module `Sync`.
- **Selection**: `filterRecordsByFolder`, the fixed folder groups chosen by
  `who`, `-singles` and `-not-shared`, and `getRandomItem` (module
  `Selection`).
- **One whole invocation** of `main`, from the argument check to the picked
  item (module `Program`).

In the modelled functions, every `log.Fatal` and `os.Exit(1)` becomes an `Err`
value of `Failures.Result`, whose error names the kind of failure. The exits
outside them (a missing `who` argument, and the token and username lookups)
are listed under "Left out".

Three behaviours of the code are modelled as written, although one might expect otherwise:

- The cache length is read before the rebuild decision (main.go:73). A missing
  or undecodable cache file therefore ends the run even when
  `-force-update` is given. `Sync.Reconcile` states this:
  `!file.Stored? ==> s.file == file && s.rebuilt.Err?`.
- The cache write is not atomic. `os.Create` truncates the file before
  anything is encoded (main.go:183-190), so a failed encode leaves a file
  that no longer decodes (`CacheStore.Save`).
- A collection count of 0 is a valid count (getData.go:206-208). Only a
  missing `count` is an error (`Remote.GetLengthOfCollection`).

The pagination loop of `getFolderItems` has no bound of its own. It stops
only after a page that reports `pagination.pages` with a value no larger
than the page number. The model gives the loop `fuel`: at most that many
page requests. Running out of fuel is reported as `Diverged`, where the Go
program would keep requesting pages forever. `Remote.NoPageCountNeverStops`
proves that, when no page reports a page count, no amount of fuel makes the
fetch succeed.

## Model

| member | source | states |
|---|---|---|
| `Remote.DecodeAll` | getData.go:95-107 | array elements decode in order; the result succeeds iff every element decodes, and then keeps length and order element for element |
| `Remote.DecodeAllFirstError` | getData.go:96-106 | a failed decode carries the error of the first element that fails, and every element before it decodes |
| `Remote.GetLengthOfCollection` | getData.go:201-211 | the reported count is returned whenever present, 0 included; a missing count fails with CountMissing; a failed request passes its error on |
| `Remote.GetFolders` | getData.go:88-108 | the folders come back in response order, element for element; no `folders` array gives the empty list; a folder that does not decode is fatal |
| `Remote.PageRecords` | getData.go:147-160 | a page with a `releases` array succeeds iff every release decodes, and then contributes exactly its releases, in order, each stamped with the folder name; a page without `releases` contributes nothing and is not an error |
| `Remote.FetchFrom` | getData.go:117-173 | the requests are consecutive page numbers from the start page and never more than the fuel; a successful fetch made at least one request and every record carries the folder name |
| `Remote.GetFolderItems` | getData.go:111-176 | the loop requests pages 1, 2, 3, ..., stamps every record with the folder name and computes exactly the fetch of `FetchFrom` |
| `Remote.FetchReachesFirstStop` | getData.go:162-173 | if page n is the first page that decodes and reports `pages <= n`, and the fuel reaches it, the fetch succeeds with requests 1..n and the concatenation of pages 1..n in page order |
| `Remote.FetchOkOnlyAtFirstStop` | getData.go:147-173 | conversely, a successful fetch stopped at the first stopping page, and its records are the concatenation of the requested pages' records |
| `Remote.NoPageCountNeverStops` | getData.go:162-173 | when no page reports `pages`, the loop never breaks: the fetch cannot succeed whatever the fuel |
| `Remote.ThreePagesThreeRequests` | getData.go:117-171 | pages that all report 3 are read with exactly the requests 1, 2, 3, and the items are pages 1, 2, 3 in that order |
| `Remote.SinglePageOneRequest` | getData.go:163-171 | a first page reporting 0 or 1 pages means exactly one request |
| `CacheStore.Load` | getData.go:214-228 | reading the cache fails with CacheMissing or CacheCorrupt unless the file decodes, and succeeds exactly when it does |
| `CacheStore.CacheLength` | main.go:144-158 | the cache length succeeds exactly when `Load` does, equals the length of the loaded list, and fails with the same error |
| `CacheStore.Save` | main.go:178-192 | a save succeeds iff nothing goes wrong, and then the file loads back as exactly the saved list; a directory or create failure leaves the old file and reports DirFailed or CreateFailed; a failed encode reports EncodeFailed and leaves a file that no longer loads |
| `Selection.WhoName` | main.go:54-59 | every choice of `who` has a spelling that the argument check accepts and reads back as the same choice |
| `Selection.ParseWho` | main.go:54-59 | the argument is accepted iff it is "alice", "james" or "both" |
| `Selection.FilterByFolder` | main.go:196-204 | every kept record has exactly the folder name, and the result is no longer than the input |
| `Selection.FilterMembers` | main.go:196-204 | a record is in the filtered list iff it is in the input and has exactly that folder name |
| `Selection.FilterRecordsByFolder` | main.go:196-204 | the appending loop computes the stable filter and keeps only matching records |
| `Selection.FilterAppend` | main.go:196-204 | filtering distributes over concatenation, so relative order is preserved |
| `Selection.FilterIdempotent` | main.go:196-204 | filtering twice by the same name gives the result of filtering once |
| `Selection.FilterKeepsEveryMatch` | main.go:196-204 | every matching record is kept as many times as it occurs, and no other record is kept |
| `Selection.FilterIsSubsequence` | main.go:196-204 | the filtered list is a subsequence of the input |
| `Selection.GroupFolders` | main.go:86-113 | a folder is drawn from iff the choice wants it (James LPs unless alice, singles only with `singles`, shared unless `notShared`), and no folder is drawn from twice |
| `Selection.SelectGroupMembers` | main.go:86-113 | a record is a candidate iff it is cached and its folder is one the choice wants |
| `Selection.BothIsJamesThenAlice` | main.go:98-113 | the pool for "both" is James's own folders followed by Alice's group, shared folders last |
| `Selection.BothOrder` | main.go:98-113 | the pool for "both" is James LPs, James Singles if singles, Alice LPs, Alice Singles if singles, Shared LPs unless not shared, Shared Singles if singles and shared |
| `Selection.SelectionScenario` | main.go:98-113 | records 1 (James LPs), 2 (Alice LPs), 3 (Shared LPs) with both flags off give the pool 1, 2, 3 |
| `Selection.GetRandomItem` | main.go:218-224 | an empty pool fails with NoRecords, and only an empty pool fails; otherwise the pick is an element of the pool |
| `Sync.Collect` | main.go:163-171 | no rebuilt record carries the folder name "All", and every rebuilt record carries the name of a listed folder |
| `Sync.CollectRecords` | main.go:160-171 | the folder loop computes `Collect`: it skips "All", fetches the other folders in order and appends their items |
| `Sync.CollectIgnoresAll` | main.go:164-167 | a folder named exactly "All" changes nothing, wherever it sits in the list |
| `Sync.CollectOkIff` | main.go:163-171 | the rebuild's fetch phase succeeds iff every folder other than "All" can be fetched |
| `Sync.CollectIsEachNonAll` | main.go:163-171 | the rebuilt list is the concatenation, in folder-list order, of the items of the non-"All" folders |
| `Sync.UpdateCache` | main.go:160-194 | the cache is written only after the folder list and every folder were fetched; a fetch failure leaves the file as it was; once everything was fetched the file is whatever the write leaves (the old file after a directory or create failure, an undecodable one after an encode failure, exactly the collected records on success), and a failed write reports the write's own error |
| `Sync.Reconcile` | main.go:71-80 | with both lengths known, a stale or forced cache is rebuilt with `UpdateCache` and is rebuilt only then; an up-to-date, unforced cache gives "not rebuilt" with the file untouched; a failed count request aborts with its own error (CountMissing when the count is absent), and a missing or corrupt cache aborts with CacheMissing or CacheCorrupt, in both cases with the file untouched; a successful rebuild holds no "All" record |
| `Sync.ReconcileTwiceIsNoop` | main.go:72-80 | a second unforced sync against an unchanged remote is a no-op once the cache length matches the count |
| `Sync.StalenessScenarios` | main.go:75-80 | cache 42 against count 45 is rebuilt; cache 45 against 45 unforced is left alone |
| `Program.Run` | main.go:54-123 | a bad argument fails before anything else; otherwise the final cache is the one the sync left, and a failed sync ends the run with its error; a picked item is in that cache and in a wanted folder; after a successful sync the only failure is an empty pool |

## Left out

- HTTP requests, the authorization header, `godotenv` token loading and
  `getUsername` (getData.go:16-63 and the request code in each function).
  These are network I/O. Their failures appear as the `Err` responses of the
  `Api` inputs. The identity lookup at the start of `main` (main.go:20-23),
  which runs before the argument check, is not modelled.
- Response status codes: the code never inspects them, and neither does the
  model.
- JSON encoding and decoding, and the `float64` to `int` conversion of
  `pages` and `count`. Decoded values are taken as integers.
- Cache paths, `cacheDir` and `checkCacheDir`. A failure of either while the
  cache is written is the `DirFault` input of `CacheStore.Save`. `cacheDir`
  also runs when the cache is read (main.go:145, getData.go:215), where a
  failed home-directory lookup is fatal (main.go:126-131). The model can show
  that only as a `Missing` file, which fails with `CacheMissing`.
- The exit when no `who` argument is given (main.go:48-52): `Program.Run`
  always receives an argument.
- The uniform distribution of `rand.Intn`. It is replaced by a caller-supplied
  `intn` that returns a number below its positive bound.
- `displayRecord`, debug and progress printing, and flag parsing and usage
  text (main.go:24-69, 206-216).
- `Remote.FetchFrom`: the Go loop has no bound. The fuel bound reports
  `Diverged` where the program would never return.
- random_item.py and randon_item.py: separate scripts over a client library,
  with different matching rules. They are not part of this model.

=== FILE: cache.dfy ===
/** The on-disk cache: a single file holding the whole record list. The file
    is modelled by what decoding it yields; the JSON encoding itself is not
    modelled, so a stored list reads back exactly as it was written. */
module CacheStore {
  import opened Failures
  import opened Models

  /** The cache file as the decoder finds it. */
  datatype CacheFile =
    | Missing                         // the file cannot be opened
    | Corrupt                         // the file exists but does not decode
    | Stored(records: seq<Record>)    // the file decodes to this record list

  /** What goes wrong, if anything, while the cache is being written. */
  datatype WriteFault =
    | NoFault
    | DirFault      // the home directory is unknown or the cache directory cannot be made
    | CreateFault   // the file cannot be created
    | EncodeFault   // the file was created (and so truncated) but the encode failed

  /** The file after a save attempt, and whether the save succeeded. */
  datatype Saved = Saved(file: CacheFile, outcome: Result<()>)

  /** Reads the whole cached record list. */
  function Load(file: CacheFile): (r: Result<seq<Record>>)
    ensures r.Ok? <==> file.Stored?
    ensures file.Missing? ==> r == Err(CacheMissing)
    ensures file.Corrupt? ==> r == Err(CacheCorrupt)
  {
    match file
    case Missing => Err(CacheMissing)
    case Corrupt => Err(CacheCorrupt)
    case Stored(records) => Ok(records)
  }

  /** The number of cached records, found by decoding the same file the same
      way as `Load` does. */
  function CacheLength(file: CacheFile): (r: Result<int>)
    ensures r.Ok? <==> Load(file).Ok?
    ensures r.Ok? ==> r.value == |Load(file).value|
    ensures r.Err? ==> r.error == Load(file).error
  {
    match file
    case Missing => Err(CacheMissing)
    case Corrupt => Err(CacheCorrupt)
    case Stored(records) => Ok(|records|)
  }

  /** Writes the whole record list over the previous contents, after making
      sure the cache directory exists. The file is truncated when it is
      created, before anything is encoded, so a failed encode leaves a file
      that no longer decodes: the write is not atomic. */
  function Save(file: CacheFile, records: seq<Record>, fault: WriteFault): (s: Saved)
    ensures s.outcome.Ok? <==> fault.NoFault?
    ensures s.outcome.Ok? ==> Load(s.file) == Ok(records)
    ensures fault.DirFault? || fault.CreateFault? ==> s.file == file
    ensures fault.EncodeFault? ==> Load(s.file).Err?
    ensures fault.DirFault? ==> s.outcome == Err(DirFailed)
    ensures fault.CreateFault? ==> s.outcome == Err(CreateFailed)
    ensures fault.EncodeFault? ==> s.outcome == Err(EncodeFailed)
  {
    match fault
    case NoFault => Saved(Stored(records), Ok(()))
    case DirFault => Saved(file, Err(DirFailed))
    case CreateFault => Saved(file, Err(CreateFailed))
    case EncodeFault => Saved(Corrupt, Err(EncodeFailed))
  }
}

=== FILE: failures.dfy ===
/** Failure values for every place where the program stops with a fatal log
    message (or exits with status 1). Instead of ending the process, each
    operation returns a `Result` that carries one of these errors. */
module Failures {

  /** What went wrong. */
  datatype Error =
    | Transport     // a request could not be sent, or its body could not be read
    | Malformed     // a response, a folder or a release did not decode
    | CountMissing  // the collection summary carries no "count"
    | CacheMissing  // the cache file cannot be opened
    | CacheCorrupt  // the cache file does not decode as a list of records
    | DirFailed     // the cache directory cannot be found or created
    | CreateFailed  // the cache file cannot be created
    | EncodeFailed  // the records cannot be written to the cache file
    | NoRecords     // there is nothing to choose a random item from
    | BadArgument   // the positional `who` argument is not alice, james or both
    | Diverged      // the page fuel ran out: the Go loop would not stop

  datatype Option<+T> = None | Some(value: T)

  /** A value, or the error that stopped its computation. Usable with `:-`. */
  datatype Result<+T> = Ok(value: T) | Err(error: Error) {

    predicate IsFailure() {
      Err?
    }

    function PropagateFailure<U>(): Result<U>
      requires Err?
    {
      Err(error)
    }

    function Extract(): T
      requires Ok?
    {
      value
    }
  }
}

=== FILE: models.dfy ===
/** The shapes of the data the program handles. Only `Record.folderName`,
    `Release.id` and the folder fields take part in any decision; every other
    field is payload that is carried along unchanged. */
module Models {

  datatype Format = Format(qty: string, descriptions: seq<string>, name: string)

  datatype Label = Label(resourceUrl: string, entityType: string, catNo: string, id: int, name: string)

  datatype Artist = Artist(
    id: int, name: string, join: string, resourceUrl: string,
    anv: string, tracks: string, role: string)

  datatype Note = Note(fieldId: int, value: string)

  datatype BasicInformation = BasicInformation(
    id: int, title: string, year: int, resourceUrl: string, thumb: string,
    coverImage: string, formats: seq<Format>, labels: seq<Label>,
    artists: seq<Artist>, genres: seq<string>, styles: seq<string>)

  /** One collection item as the remote API describes it. */
  datatype Release = Release(
    id: int, instanceId: int, folderId: int, rating: int,
    basicInformation: BasicInformation, notes: seq<Note>)

  /** A cached item: the remote release plus the name of the folder it was
      fetched from, which the client assigns and the API never sends. */
  datatype Record = Record(release: Release, folderName: string)

  /** A named sub-collection of the user's collection. */
  datatype Folder = Folder(id: int, name: string, count: int, resourceUrl: string)
}

=== FILE: program.dfy ===
/** One invocation of the command: check the argument, bring the cache up to
    date, read it back, narrow it to the requested folders and pick one item. */
module Program {
  import opened Failures
  import opened Models
  import opened Remote
  import opened CacheStore
  import opened Selection
  import opened Sync

  /** The cache file when the invocation ends, and the item it picked. */
  datatype Outcome = Outcome(file: CacheFile, pick: Result<Record>)

  /** The whole invocation. `intn` plays the part of `rand.Intn`, `fault` the
      part of the file system while the cache is written, and `fuel` bounds
      the number of pages read from any one folder. */
  function Run(
    arg: string, singles: bool, notShared: bool, forceUpdate: bool,
    api: Api, file: CacheFile, fault: WriteFault, fuel: nat, intn: nat -> nat): (o: Outcome)
    requires IsIntn(intn)
    ensures ParseWho(arg).None? ==> o == Outcome(file, Err(BadArgument))
    ensures o.pick.Ok? ==> ParseWho(arg).Some? && o.file.Stored? && o.pick.value in o.file.records
    ensures o.pick.Ok? ==> Wanted(ParseWho(arg).value, singles, notShared, o.pick.value.folderName)
    ensures ParseWho(arg).Some? ==> o.file == Reconcile(api, file, forceUpdate, fault, fuel).file
    ensures ParseWho(arg).Some? && Reconcile(api, file, forceUpdate, fault, fuel).rebuilt.Err? ==>
              o.pick == Err(Reconcile(api, file, forceUpdate, fault, fuel).rebuilt.error)
    ensures ParseWho(arg).Some? && Reconcile(api, file, forceUpdate, fault, fuel).rebuilt.Ok? && o.pick.Err? ==>
              && o.pick.error == NoRecords
              && o.file.Stored?
              && forall x :: x in o.file.records ==> !Wanted(ParseWho(arg).value, singles, notShared, x.folderName)
  {
    match ParseWho(arg)
    case None => Outcome(file, Err(BadArgument))
    case Some(who) =>
      var synced := Reconcile(api, file, forceUpdate, fault, fuel);
      if synced.rebuilt.Err? then Outcome(synced.file, Err(synced.rebuilt.error))
      else
        match Load(synced.file)
        case Err(e) => Outcome(synced.file, Err(e))
        case Ok(records) =>
          var pool := SelectGroup(records, who, singles, notShared);
          var pick := GetRandomItem(pool, intn);
          assert pick.Ok? ==> pick.value in records && Wanted(who, singles, notShared, pick.value.folderName) by {
            if pick.Ok? {
              SelectGroupMembers(records, who, singles, notShared, pick.value);
            }
          }
          assert pick == Err(NoRecords) ==>
                   forall x :: x in records ==> !Wanted(who, singles, notShared, x.folderName) by {
            forall x | x in records
              ensures pick == Err(NoRecords) ==> !Wanted(who, singles, notShared, x.folderName)
            {
              SelectGroupMembers(records, who, singles, notShared, x);
            }
          }
          Outcome(synced.file, pick)
  }
}

=== FILE: remote.dfy ===
/** The remote collection client: the collection count, the folder list and
    the paginated items of one folder. Every HTTP exchange is replaced by the
    decoded response it would have produced (or the failure it would have
    reported), so the client is a set of pure functions over those responses. */
module Remote {
  import opened Failures
  import opened Models

  /** Body of the collection summary (folder 0): the "count" field, if any. */
  datatype Summary = Summary(count: Option<int>)

  /** Body of the folder list: the "folders" array, if any, one entry per
      folder, each of which decodes or fails on its own. */
  datatype FolderListing = FolderListing(folders: Option<seq<Result<Folder>>>)

  /** Body of one page of a folder: the "releases" array, if any, and the
      "pages" field of the "pagination" object, if both are present. */
  datatype Page = Page(releases: Option<seq<Result<Release>>>, pages: Option<int>)

  /** The answers of one folder's endpoint, by page number. */
  type PageSource = int -> Result<Page>

  /** The remote side as seen by the client. `pages(folderId, page)` is the
      answer to the request for that page of that folder. */
  datatype Api = Api(
    summary: Result<Summary>,
    folderListing: Result<FolderListing>,
    pages: (int, int) -> Result<Page>)

  /** Decodes array elements one at a time, in order; the first element that
      does not decode ends the whole decode with its error. */
  function DecodeAll<T>(items: seq<Result<T>>): (r: Result<seq<T>>)
    ensures r.Ok? <==> forall i :: 0 <= i < |items| ==> items[i].Ok?
    ensures r.Ok? ==> |r.value| == |items|
    ensures r.Ok? ==> forall i :: 0 <= i < |items| ==> r.value[i] == items[i].value
    decreases |items|
  {
    if |items| == 0 then Ok([])
    else if items[0].Err? then Err(items[0].error)
    else
      var rest := DecodeAll(items[1..]);
      if rest.Err? then Err(rest.error)
      else Ok([items[0].value] + rest.value)
  }

  /** A failed decode reports the error of the first element that fails. */
  lemma {:induction false} DecodeAllFirstError<T>(items: seq<Result<T>>) returns (k: nat)
    requires DecodeAll(items).Err?
    ensures k < |items| && items[k].Err? && items[k].error == DecodeAll(items).error
    ensures forall j :: 0 <= j < k ==> items[j].Ok?
    decreases |items|
  {
    if items[0].Err? {
      k := 0;
    } else {
      var k' := DecodeAllFirstError(items[1..]);
      k := k' + 1;
      assert forall j :: 1 <= j < k ==> items[j] == items[1..][j - 1];
    }
  }

  /** The authoritative size of the collection: the reported count, whatever
      its value (zero included); only a missing count is an error. */
  function GetLengthOfCollection(response: Result<Summary>): (r: Result<int>)
    ensures r.Ok? <==> response.Ok? && response.value.count.Some?
    ensures r.Ok? ==> r.value == response.value.count.value
    ensures response.Err? ==> r.Err? && r.error == response.error
    ensures response.Ok? && response.value.count.None? ==> r == Err(CountMissing)
  {
    var summary :- response;
    match summary.count
    case Some(count) => Ok(count)
    case None => Err(CountMissing)
  }

  /** The folders, in the order the response lists them. A response without
      a "folders" array gives no folders; a folder that does not decode is
      fatal. */
  function GetFolders(response: Result<FolderListing>): (r: Result<seq<Folder>>)
    ensures r.Ok? <==> response.Ok? && (response.value.folders.Some? ==>
              forall i :: 0 <= i < |response.value.folders.value| ==> response.value.folders.value[i].Ok?)
    ensures r.Ok? && response.value.folders.None? ==> r.value == []
    ensures r.Ok? && response.value.folders.Some? ==>
              |r.value| == |response.value.folders.value| &&
              forall i :: 0 <= i < |r.value| ==> r.value[i] == response.value.folders.value[i].value
  {
    var listing :- response;
    match listing.folders
    case None => Ok([])
    case Some(entries) => DecodeAll(entries)
  }

  /** Gives every release the folder name it was fetched under. */
  function Stamp(releases: seq<Release>, folderName: string): (records: seq<Record>)
    ensures |records| == |releases|
    ensures forall i :: 0 <= i < |records| ==>
              records[i].release == releases[i] && records[i].folderName == folderName
  {
    seq(|releases|, i requires 0 <= i < |releases| => Record(releases[i], folderName))
  }

  /** The records one page contributes: its releases, decoded in order and
      stamped with the folder name. A page without a "releases" array
      contributes nothing and is not an error. */
  function PageRecords(page: Page, folderName: string): (r: Result<seq<Record>>)
    ensures r.Ok? ==> forall i :: 0 <= i < |r.value| ==> r.value[i].folderName == folderName
    ensures page.releases.None? ==> r == Ok([])
    ensures page.releases.Some? ==>
              (r.Ok? <==> forall i :: 0 <= i < |page.releases.value| ==> page.releases.value[i].Ok?)
    ensures r.Ok? && page.releases.Some? ==>
              && |r.value| == |page.releases.value|
              && forall i :: 0 <= i < |r.value| ==> r.value[i] == Record(page.releases.value[i].value, folderName)
  {
    match page.releases
    case None => Ok([])
    case Some(items) =>
      var releases :- DecodeAll(items);
      Ok(Stamp(releases, folderName))
  }

  /** After page `number` has been read, the loop stops exactly when the page
      reports a total page count that is at most `number`. */
  predicate Stops(page: Page, number: int) {
    page.pages.Some? && page.pages.value <= number
  }

  /** What a fetch produced, and the page numbers it requested, in order. */
  datatype Fetch = Fetch(items: Result<seq<Record>>, requests: seq<int>)

  /** The pagination loop from page `number` on, with at most `fuel` more
      requests. Running out of fuel stands for the Go loop not
      stopping, and is reported as `Diverged`. */
  function FetchFrom(source: PageSource, folderName: string, number: int, fuel: nat): (f: Fetch)
    ensures |f.requests| <= fuel
    ensures forall i :: 0 <= i < |f.requests| ==> f.requests[i] == number + i
    ensures f.items.Ok? ==> 0 < |f.requests|
    ensures f.items.Ok? ==> forall i :: 0 <= i < |f.items.value| ==> f.items.value[i].folderName == folderName
    decreases fuel
  {
    if fuel == 0 then Fetch(Err(Diverged), [])
    else
      var response := source(number);
      if response.Err? then Fetch(Err(response.error), [number])
      else
        var here := PageRecords(response.value, folderName);
        if here.Err? then Fetch(Err(here.error), [number])
        else if Stops(response.value, number) then Fetch(Ok(here.value), [number])
        else Prepend(here.value, [number], FetchFrom(source, folderName, number + 1, fuel - 1))
  }

  /** `rest` preceded by records and requests that were already made. */
  function Prepend(records: seq<Record>, requests: seq<int>, rest: Fetch): Fetch {
    Fetch(PrependItems(records, rest.items), requests + rest.requests)
  }

  /** `rest` preceded by records already gathered; an error stays an error. */
  function PrependItems(records: seq<Record>, rest: Result<seq<Record>>): Result<seq<Record>> {
    if rest.Ok? then Ok(records + rest.value) else rest
  }

  /** The items of one folder, starting at page 1. */
  function FetchFolder(api: Api, folder: Folder, fuel: nat): Fetch {
    FetchFrom(number => api.pages(folder.id, number), folder.name, 1, fuel)
  }

  /** The pagination loop: request pages 1, 2, 3, ..., append each page's
      stamped releases, and stop after the first page whose reported page
      count is at most its own number. */
  method GetFolderItems(source: PageSource, folderName: string, fuel: nat)
    returns (items: Result<seq<Record>>, requests: seq<int>)
    ensures Fetch(items, requests) == FetchFrom(source, folderName, 1, fuel)
    ensures forall i :: 0 <= i < |requests| ==> requests[i] == i + 1
    ensures items.Ok? ==> forall i :: 0 <= i < |items.value| ==> items.value[i].folderName == folderName
  {
    var records: seq<Record> := [];
    requests := [];
    var number := 1;
    var remaining := fuel;
    PrependNothing(FetchFrom(source, folderName, 1, fuel));
    while true
      invariant FetchFrom(source, folderName, 1, fuel)
                == Prepend(records, requests, FetchFrom(source, folderName, number, remaining))
      decreases remaining
    {
      if remaining == 0 {
        items := Err(Diverged);
        assert requests + [] == requests;
        return;
      }
      var response := source(number);
      if response.Err? {
        items := Err(response.error);
        requests := requests + [number];
        return;
      }
      var here := PageRecords(response.value, folderName);
      if here.Err? {
        items := Err(here.error);
        requests := requests + [number];
        return;
      }
      if Stops(response.value, number) {
        items := Ok(records + here.value);
        requests := requests + [number];
        return;
      }
      PrependTwice(records, requests, here.value, [number],
                   FetchFrom(source, folderName, number + 1, remaining - 1));
      records := records + here.value;
      requests := requests + [number];
      number := number + 1;
      remaining := remaining - 1;
    }
  }

  lemma PrependNothing(rest: Fetch)
    ensures Prepend([], [], rest) == rest
  {
    if rest.items.Ok? {
      assert [] + rest.items.value == rest.items.value;
    }
    assert [] + rest.requests == rest.requests;
  }

  lemma PrependTwice(records: seq<Record>, requests: seq<int>, more: seq<Record>, moreRequests: seq<int>, rest: Fetch)
    ensures Prepend(records, requests, Prepend(more, moreRequests, rest))
            == Prepend(records + more, requests + moreRequests, rest)
  {
    if rest.items.Ok? {
      assert records + (more + rest.items.value) == (records + more) + rest.items.value;
    }
    assert requests + (moreRequests + rest.requests) == (requests + moreRequests) + rest.requests;
  }

  // ---------------------------------------------------------------------
  // An independent description of a successful fetch: the pages before the
  // stopping page all decode and do not stop, the stopping page decodes and
  // stops, and the result is the concatenation of every page's records.

  /** Page `number` answers and its releases decode. */
  ghost predicate PageOk(source: PageSource, folderName: string, number: int) {
    source(number).Ok? && PageRecords(source(number).value, folderName).Ok?
  }

  /** The records page `number` contributes when it decodes, none otherwise. */
  function Contribution(source: PageSource, folderName: string, number: int): seq<Record> {
    var response := source(number);
    if response.Ok? && PageRecords(response.value, folderName).Ok?
    then PageRecords(response.value, folderName).value
    else []
  }

  /** Page `last` is the first page from `first` on at which the loop stops. */
  ghost predicate FirstStop(source: PageSource, folderName: string, first: int, last: int) {
    && first <= last
    && (forall p :: first <= p < last ==> PageOk(source, folderName, p) && !Stops(source(p).value, p))
    && PageOk(source, folderName, last)
    && Stops(source(last).value, last)
  }

  /** The records of pages `first` up to but excluding `limit`, in page order. */
  function Joined(source: PageSource, folderName: string, first: int, limit: int): seq<Record>
    decreases limit - first
  {
    if limit <= first then []
    else Contribution(source, folderName, first) + Joined(source, folderName, first + 1, limit)
  }

  /** The page numbers `first` up to and including `last`. */
  function Consecutive(first: int, last: int): (r: seq<int>)
    decreases last - first + 1
  {
    if last < first then [] else [first] + Consecutive(first + 1, last)
  }

  /** If the loop's stopping page is within reach of the fuel, the fetch
      succeeds, requests exactly the pages up to it, and returns the
      concatenation of their records. */
  lemma FetchReachesFirstStop(source: PageSource, folderName: string, first: int, last: int, fuel: nat)
    requires FirstStop(source, folderName, first, last)
    requires last - first < fuel
    ensures FetchFrom(source, folderName, first, fuel)
            == Fetch(Ok(Joined(source, folderName, first, last + 1)), Consecutive(first, last))
  {
    ReachedItems(source, folderName, first, last, fuel);
    ReachedRequests(source, folderName, first, last, fuel);
  }

  lemma {:induction false} ReachedItems(source: PageSource, folderName: string, first: int, last: int, fuel: nat)
    requires FirstStop(source, folderName, first, last)
    requires last - first < fuel
    ensures FetchFrom(source, folderName, first, fuel).items == Ok(Joined(source, folderName, first, last + 1))
    decreases last - first
  {
    assert PageOk(source, folderName, first);
    FetchItemsUnfold(source, folderName, first, fuel);
    var here := Contribution(source, folderName, first);
    assert Joined(source, folderName, first, last + 1) == here + Joined(source, folderName, first + 1, last + 1);
    if first < last {
      FirstStopShrink(source, folderName, first, last);
      ReachedItems(source, folderName, first + 1, last, fuel - 1);
    } else {
      assert Joined(source, folderName, first + 1, last + 1) == [];
      assert here + [] == here;
    }
  }

  lemma {:induction false} ReachedRequests(source: PageSource, folderName: string, first: int, last: int, fuel: nat)
    requires FirstStop(source, folderName, first, last)
    requires last - first < fuel
    ensures FetchFrom(source, folderName, first, fuel).requests == Consecutive(first, last)
    decreases last - first
  {
    assert PageOk(source, folderName, first);
    FetchUnfold(source, folderName, first, fuel);
    assert Consecutive(first, last) == [first] + Consecutive(first + 1, last);
    if first < last {
      FirstStopShrink(source, folderName, first, last);
      ReachedRequests(source, folderName, first + 1, last, fuel - 1);
    } else {
      assert Consecutive(first + 1, last) == [];
    }
  }

  /** One turn of the loop, for a page that answers and decodes. */
  lemma FetchUnfold(source: PageSource, folderName: string, number: int, fuel: nat)
    requires 0 < fuel && PageOk(source, folderName, number)
    ensures FetchFrom(source, folderName, number, fuel)
            == if Stops(source(number).value, number)
               then Fetch(Ok(Contribution(source, folderName, number)), [number])
               else Prepend(Contribution(source, folderName, number), [number],
                            FetchFrom(source, folderName, number + 1, fuel - 1))
  {
  }

  /** The items half of `FetchUnfold`. */
  lemma FetchItemsUnfold(source: PageSource, folderName: string, number: int, fuel: nat)
    requires 0 < fuel && PageOk(source, folderName, number)
    ensures FetchFrom(source, folderName, number, fuel).items
            == if Stops(source(number).value, number)
               then Ok(Contribution(source, folderName, number))
               else PrependItems(Contribution(source, folderName, number),
                                 FetchFrom(source, folderName, number + 1, fuel - 1).items)
  {
    FetchUnfold(source, folderName, number, fuel);
  }

  /** A fetch succeeds only if its first page answers and decodes. */
  lemma FetchOkFirstPageOk(source: PageSource, folderName: string, number: int, fuel: nat)
    requires FetchFrom(source, folderName, number, fuel).items.Ok?
    ensures 0 < fuel && PageOk(source, folderName, number)
  {
  }

  /** Conversely, a fetch that succeeds stopped at the first stopping page,
      and its records are the concatenation of the requested pages' records. */
  lemma FetchOkOnlyAtFirstStop(source: PageSource, folderName: string, first: int, fuel: nat)
    requires FetchFrom(source, folderName, first, fuel).items.Ok?
    ensures var f := FetchFrom(source, folderName, first, fuel);
            && FirstStop(source, folderName, first, first + |f.requests| - 1)
            && f.items.value == Joined(source, folderName, first, first + |f.requests|)
  {
    FetchOkStopsFirst(source, folderName, first, fuel);
    FetchOkJoined(source, folderName, first, fuel);
  }

  lemma {:induction false} FetchOkStopsFirst(source: PageSource, folderName: string, first: int, fuel: nat)
    requires FetchFrom(source, folderName, first, fuel).items.Ok?
    ensures FirstStop(source, folderName, first, first + |FetchFrom(source, folderName, first, fuel).requests| - 1)
    decreases fuel
  {
    FetchOkFirstPageOk(source, folderName, first, fuel);
    FetchUnfold(source, folderName, first, fuel);
    if !Stops(source(first).value, first) {
      var rest := FetchFrom(source, folderName, first + 1, fuel - 1);
      assert rest.items.Ok?;
      FetchOkStopsFirst(source, folderName, first + 1, fuel - 1);
      FirstStopExtend(source, folderName, first, first + 1 + |rest.requests| - 1);
    }
  }

  lemma {:induction false} FetchOkJoined(source: PageSource, folderName: string, first: int, fuel: nat)
    requires FetchFrom(source, folderName, first, fuel).items.Ok?
    ensures var f := FetchFrom(source, folderName, first, fuel);
            f.items.value == Joined(source, folderName, first, first + |f.requests|)
    decreases fuel
  {
    FetchOkFirstPageOk(source, folderName, first, fuel);
    FetchUnfold(source, folderName, first, fuel);
    var here := Contribution(source, folderName, first);
    if Stops(source(first).value, first) {
      assert Joined(source, folderName, first + 1, first + 1) == [];
      assert Joined(source, folderName, first, first + 1) == here + [] == here;
    } else {
      var rest := FetchFrom(source, folderName, first + 1, fuel - 1);
      assert rest.items.Ok?;
      FetchOkJoined(source, folderName, first + 1, fuel - 1);
      var limit := first + 1 + |rest.requests|;
      assert Joined(source, folderName, first, limit) == here + Joined(source, folderName, first + 1, limit);
    }
  }

  /** Dropping the first page of a run that ends at its first stopping page
      leaves such a run, when the first page was not the stopping one. */
  lemma FirstStopShrink(source: PageSource, folderName: string, first: int, last: int)
    requires FirstStop(source, folderName, first, last) && first < last
    ensures !Stops(source(first).value, first)
    ensures FirstStop(source, folderName, first + 1, last)
  {
    assert first <= first < last;
  }

  /** A page that decodes and does not stop can be put in front of a run
      that ends at its first stopping page. */
  lemma FirstStopExtend(source: PageSource, folderName: string, first: int, last: int)
    requires PageOk(source, folderName, first) && !Stops(source(first).value, first)
    requires FirstStop(source, folderName, first + 1, last)
    ensures FirstStop(source, folderName, first, last)
  {
    forall p | first <= p < last
      ensures PageOk(source, folderName, p) && !Stops(source(p).value, p)
    {
      if p > first {
        assert first + 1 <= p < last;
      }
    }
  }

  /** When no page ever reports a page count, the loop never breaks: the
      fetch cannot succeed, whatever the fuel. */
  lemma {:induction false} NoPageCountNeverStops(source: PageSource, folderName: string, first: int, fuel: nat)
    requires forall p :: source(p).Ok? ==> source(p).value.pages.None?
    ensures FetchFrom(source, folderName, first, fuel).items.Err?
    decreases fuel
  {
    if 0 < fuel && source(first).Ok? && PageRecords(source(first).value, folderName).Ok? {
      assert !Stops(source(first).value, first);
      NoPageCountNeverStops(source, folderName, first + 1, fuel - 1);
    }
  }

  /** A folder whose every page reports 3 pages is read with exactly the
      requests 1, 2, 3, and its items are those pages' records in order. */
  lemma ThreePagesThreeRequests(source: PageSource, folderName: string, fuel: nat)
    requires forall p :: 1 <= p <= 3 ==> PageOk(source, folderName, p) && source(p).value.pages == Some(3)
    requires 3 <= fuel
    ensures FetchFrom(source, folderName, 1, fuel).requests == [1, 2, 3]
    ensures FetchFrom(source, folderName, 1, fuel).items
            == Ok(Contribution(source, folderName, 1) + Contribution(source, folderName, 2)
                  + Contribution(source, folderName, 3))
  {
    forall p | 1 <= p < 3
      ensures PageOk(source, folderName, p) && !Stops(source(p).value, p)
    {
    }
    assert PageOk(source, folderName, 3) && Stops(source(3).value, 3);
    assert FirstStop(source, folderName, 1, 3);
    FetchReachesFirstStop(source, folderName, 1, 3, fuel);
    ConsecutiveSpan(1, 3);
    JoinedThree(source, folderName);
  }

  lemma ConsecutiveSpan(first: int, last: int)
    ensures |Consecutive(first, last)| == if last < first then 0 else last - first + 1
    ensures forall i :: 0 <= i < |Consecutive(first, last)| ==> Consecutive(first, last)[i] == first + i
    decreases last - first + 1
  {
    if first <= last {
      ConsecutiveSpan(first + 1, last);
    }
  }

  lemma JoinedThree(source: PageSource, folderName: string)
    ensures Joined(source, folderName, 1, 4)
            == Contribution(source, folderName, 1) + Contribution(source, folderName, 2)
               + Contribution(source, folderName, 3)
  {
    var c1, c2, c3 := Contribution(source, folderName, 1), Contribution(source, folderName, 2),
                      Contribution(source, folderName, 3);
    JoinedLast(source, folderName, 3);
    assert Joined(source, folderName, 3, 4) == c3;
    assert Joined(source, folderName, 2, 4) == c2 + c3;
    assert c1 + (c2 + c3) == c1 + c2 + c3;
  }

  /** A range of one page joins to that page's records. */
  lemma JoinedLast(source: PageSource, folderName: string, number: int)
    ensures Joined(source, folderName, number, number + 1) == Contribution(source, folderName, number)
  {
    assert Joined(source, folderName, number + 1, number + 1) == [];
    assert Contribution(source, folderName, number) + [] == Contribution(source, folderName, number);
  }

  /** A folder whose first page reports 0 or 1 pages is read with exactly one
      request. */
  lemma SinglePageOneRequest(source: PageSource, folderName: string, fuel: nat)
    requires PageOk(source, folderName, 1)
    requires source(1).value.pages == Some(0) || source(1).value.pages == Some(1)
    requires 1 <= fuel
    ensures FetchFrom(source, folderName, 1, fuel)
            == Fetch(Ok(Contribution(source, folderName, 1)), [1])
  {
    assert FirstStop(source, folderName, 1, 1);
    FetchReachesFirstStop(source, folderName, 1, 1, fuel);
    assert Consecutive(1, 1) == [1] + Consecutive(2, 1);
    assert Joined(source, folderName, 1, 2) == Contribution(source, folderName, 1) + Joined(source, folderName, 2, 2);
  }
}

=== FILE: selection.dfy ===
/** Choosing the pool of candidate records by folder name, and picking one
    item from it. Folder names follow a fixed convention: each of the two
    owners has an "LPs" and a "Singles" folder, and there is a shared pair. */
module Selection {
  import opened Failures
  import opened Models

  const JamesLPs := "James LPs"
  const JamesSingles := "James Singles"
  const AliceLPs := "Alice LPs"
  const AliceSingles := "Alice Singles"
  const SharedLPs := "Shared LPs"
  const SharedSingles := "Shared Singles"

  /** Whose folders the item is drawn from. */
  datatype Who = Alice | James | Both

  /** The command-line spelling of each choice. */
  function WhoName(who: Who): (name: string)
    ensures ParseWho(name) == Some(who)
  {
    match who
    case Alice => "alice"
    case James => "james"
    case Both => "both"
  }

  /** Reads the positional argument; any spelling but the three is refused. */
  function ParseWho(arg: string): (who: Option<Who>)
    ensures who.Some? <==> arg == "alice" || arg == "james" || arg == "both"
  {
    if arg == "alice" then Some(Alice)
    else if arg == "james" then Some(James)
    else if arg == "both" then Some(Both)
    else None
  }

  // ---------------------------------------------------------------------
  // Filtering by folder name

  /** The records whose folder name is exactly `folderName`, in their
      original order. */
  function FilterByFolder(records: seq<Record>, folderName: string): (r: seq<Record>)
    ensures |r| <= |records|
    ensures forall i :: 0 <= i < |r| ==> r[i].folderName == folderName
    decreases |records|
  {
    if |records| == 0 then []
    else
      (if records[0].folderName == folderName then [records[0]] else [])
      + FilterByFolder(records[1..], folderName)
  }

  /** The loop that builds the filtered list by appending each matching
      record in turn. */
  method FilterRecordsByFolder(records: seq<Record>, folderName: string) returns (filtered: seq<Record>)
    ensures filtered == FilterByFolder(records, folderName)
    ensures forall i :: 0 <= i < |filtered| ==> filtered[i].folderName == folderName
  {
    filtered := [];
    var i := 0;
    while i < |records|
      invariant 0 <= i <= |records|
      invariant filtered == FilterByFolder(records[..i], folderName)
    {
      FilterSnoc(records[..i], records[i], folderName);
      assert records[..i + 1] == records[..i] + [records[i]];
      if records[i].folderName == folderName {
        filtered := filtered + [records[i]];
      }
      i := i + 1;
    }
    assert records[..i] == records;
  }

  /** Filtering distributes over concatenation, so relative order is kept. */
  lemma {:induction false} FilterAppend(a: seq<Record>, b: seq<Record>, folderName: string)
    ensures FilterByFolder(a + b, folderName) == FilterByFolder(a, folderName) + FilterByFolder(b, folderName)
    decreases |a|
  {
    if |a| == 0 {
      assert a + b == b;
    } else {
      assert (a + b)[1..] == a[1..] + b;
      FilterAppend(a[1..], b, folderName);
    }
  }

  /** A record is kept iff it is in the input with that folder name; in
      particular no match gives the empty list. */
  lemma {:induction false} FilterMembers(records: seq<Record>, folderName: string, x: Record)
    ensures x in FilterByFolder(records, folderName) <==> x in records && x.folderName == folderName
    decreases |records|
  {
    if |records| > 0 {
      FilterMembers(records[1..], folderName, x);
      assert records == [records[0]] + records[1..];
    }
  }

  /** Appending one record appends it to the filtered list iff it matches. */
  lemma FilterSnoc(prefix: seq<Record>, x: Record, folderName: string)
    ensures FilterByFolder(prefix + [x], folderName)
            == FilterByFolder(prefix, folderName) + (if x.folderName == folderName then [x] else [])
  {
    FilterAppend(prefix, [x], folderName);
    FilterCons(x, [], folderName);
    assert [x] + [] == [x];
  }

  /** Filtering twice by the same name is filtering once. */
  lemma {:induction false} FilterIdempotent(records: seq<Record>, folderName: string)
    ensures FilterByFolder(FilterByFolder(records, folderName), folderName) == FilterByFolder(records, folderName)
    decreases |records|
  {
    if |records| > 0 {
      var rest := FilterByFolder(records[1..], folderName);
      FilterIdempotent(records[1..], folderName);
      if records[0].folderName == folderName {
        var r := FilterByFolder(records, folderName);
        assert r == [records[0]] + rest;
        assert r[1..] == rest;
        assert r[0] == records[0];
        assert FilterByFolder(r, folderName) == [records[0]] + FilterByFolder(r[1..], folderName);
      } else {
        assert FilterByFolder(records, folderName) == rest;
      }
    }
  }

  /** No matching record is dropped, counting repetitions, and nothing else
      is kept. */
  lemma {:induction false} FilterKeepsEveryMatch(records: seq<Record>, folderName: string, x: Record)
    ensures multiset(FilterByFolder(records, folderName))[x]
            == if x.folderName == folderName then multiset(records)[x] else 0
    decreases |records|
  {
    if |records| > 0 {
      FilterKeepsEveryMatch(records[1..], folderName, x);
      assert records == [records[0]] + records[1..];
      assert multiset(records) == multiset([records[0]]) + multiset(records[1..]);
    }
  }

  /** `sub` can be obtained from `full` by deleting elements. */
  predicate IsSubsequence<T(==)>(sub: seq<T>, full: seq<T>)
    decreases |full|
  {
    if |sub| == 0 then true
    else if |full| == 0 then false
    else if sub[0] == full[0] then IsSubsequence(sub[1..], full[1..])
    else IsSubsequence(sub, full[1..])
  }

  /** The filtered list is a subsequence of its input. */
  lemma {:induction false} FilterIsSubsequence(records: seq<Record>, folderName: string)
    ensures IsSubsequence(FilterByFolder(records, folderName), records)
    decreases |records|
  {
    if |records| > 0 {
      var r := FilterByFolder(records, folderName);
      var rest := FilterByFolder(records[1..], folderName);
      FilterIsSubsequence(records[1..], folderName);
      if records[0].folderName == folderName {
        assert r == [records[0]] + rest;
        assert r[1..] == rest;
      } else {
        assert r == rest;
        if |r| > 0 {
          assert r[0] in rest;
        }
      }
    }
  }

  // ---------------------------------------------------------------------
  // Groups

  /** An owner's folders: always the LPs, the singles only when asked for. */
  function OwnerFolders(lps: string, singles: string, withSingles: bool): seq<string> {
    [lps] + (if withSingles then [singles] else [])
  }

  /** The folders drawn from, in the order their records are appended. */
  function GroupFolders(who: Who, singles: bool, notShared: bool): (names: seq<string>)
    ensures forall name :: name in names <==> Wanted(who, singles, notShared, name)
    ensures forall i, j :: 0 <= i < j < |names| ==> names[i] != names[j]
  {
    var own := match who
      case Alice => OwnerFolders(AliceLPs, AliceSingles, singles)
      case James => OwnerFolders(JamesLPs, JamesSingles, singles)
      case Both => OwnerFolders(JamesLPs, JamesSingles, singles) + OwnerFolders(AliceLPs, AliceSingles, singles);
    own + (if notShared then [] else OwnerFolders(SharedLPs, SharedSingles, singles))
  }

  /** Which folders a choice of `who`, `singles` and `notShared` takes
      records from, stated folder by folder. */
  predicate Wanted(who: Who, singles: bool, notShared: bool, name: string) {
    || (name == JamesLPs && who != Alice)
    || (name == JamesSingles && who != Alice && singles)
    || (name == AliceLPs && who != James)
    || (name == AliceSingles && who != James && singles)
    || (name == SharedLPs && !notShared)
    || (name == SharedSingles && !notShared && singles)
  }

  /** The records of each named folder in turn. */
  function FilterAll(records: seq<Record>, names: seq<string>): (r: seq<Record>)
    decreases |names|
  {
    if |names| == 0 then []
    else FilterByFolder(records, names[0]) + FilterAll(records, names[1..])
  }

  /** The candidate pool for one invocation. */
  function SelectGroup(records: seq<Record>, who: Who, singles: bool, notShared: bool): seq<Record> {
    FilterAll(records, GroupFolders(who, singles, notShared))
  }

  lemma {:induction false} FilterAllAppend(records: seq<Record>, a: seq<string>, b: seq<string>)
    ensures FilterAll(records, a + b) == FilterAll(records, a) + FilterAll(records, b)
    decreases |a|
  {
    if |a| == 0 {
      assert a + b == b;
    } else {
      assert (a + b)[1..] == a[1..] + b;
      FilterAllAppend(records, a[1..], b);
    }
  }

  lemma {:induction false} FilterAllMembers(records: seq<Record>, names: seq<string>, x: Record)
    ensures x in FilterAll(records, names) <==> x in records && x.folderName in names
    decreases |names|
  {
    if |names| > 0 {
      var head := FilterByFolder(records, names[0]);
      var tail := FilterAll(records, names[1..]);
      FilterAllMembers(records, names[1..], x);
      assert FilterAll(records, names) == head + tail;
      assert x in head + tail <==> x in head || x in tail;
      FilterMembers(records, names[0], x);
      assert names == [names[0]] + names[1..];
      assert x.folderName in names <==> x.folderName == names[0] || x.folderName in names[1..];
    }
  }

  /** A record is a candidate exactly when it is cached and its folder is one
      the choice asks for. */
  lemma SelectGroupMembers(records: seq<Record>, who: Who, singles: bool, notShared: bool, x: Record)
    ensures x in SelectGroup(records, who, singles, notShared)
            <==> x in records && Wanted(who, singles, notShared, x.folderName)
  {
    FilterAllMembers(records, GroupFolders(who, singles, notShared), x);
  }

  /** "both" is James's own folders followed by Alice's group, shared
      folders (when included) last. */
  lemma BothIsJamesThenAlice(records: seq<Record>, singles: bool, notShared: bool)
    ensures SelectGroup(records, Both, singles, notShared)
            == SelectGroup(records, James, singles, true) + SelectGroup(records, Alice, singles, notShared)
  {
    var james := OwnerFolders(JamesLPs, JamesSingles, singles);
    var alice := OwnerFolders(AliceLPs, AliceSingles, singles);
    var shared := if notShared then [] else OwnerFolders(SharedLPs, SharedSingles, singles);
    assert GroupFolders(Both, singles, notShared) == james + (alice + shared);
    assert GroupFolders(James, singles, true) == james + [];
    assert GroupFolders(Alice, singles, notShared) == alice + shared;
    FilterAllAppend(records, james, alice + shared);
    assert james + [] == james;
  }

  /** The pool for "both", folder by folder: James LPs, James Singles if
      singles, Alice LPs, Alice Singles if singles, Shared LPs unless not
      shared, Shared Singles if singles and not excluded. */
  lemma BothOrder(records: seq<Record>, singles: bool, notShared: bool)
    ensures SelectGroup(records, Both, singles, notShared)
            == FilterByFolder(records, JamesLPs)
               + (if singles then FilterByFolder(records, JamesSingles) else [])
               + FilterByFolder(records, AliceLPs)
               + (if singles then FilterByFolder(records, AliceSingles) else [])
               + (if !notShared then FilterByFolder(records, SharedLPs) else [])
               + (if singles && !notShared then FilterByFolder(records, SharedSingles) else [])
  {
    var jl := [JamesLPs];
    var js := if singles then [JamesSingles] else [];
    var al := [AliceLPs];
    var aliceSingles := if singles then [AliceSingles] else [];
    var sl := if !notShared then [SharedLPs] else [];
    var ss := if singles && !notShared then [SharedSingles] else [];
    assert GroupFolders(Both, singles, notShared) == jl + js + al + aliceSingles + sl + ss;
    FilterAllAppend(records, jl + js + al + aliceSingles + sl, ss);
    FilterAllAppend(records, jl + js + al + aliceSingles, sl);
    FilterAllAppend(records, jl + js + al, aliceSingles);
    FilterAllAppend(records, jl + js, al);
    FilterAllAppend(records, jl, js);
    FilterAllSingle(records, JamesLPs);
    FilterAllSingle(records, JamesSingles);
    FilterAllSingle(records, AliceLPs);
    FilterAllSingle(records, AliceSingles);
    FilterAllSingle(records, SharedLPs);
    FilterAllSingle(records, SharedSingles);
  }

  lemma FilterAllSingle(records: seq<Record>, name: string)
    ensures FilterAll(records, [name]) == FilterByFolder(records, name)
  {
    assert FilterAll(records, [name]) == FilterByFolder(records, name) + FilterAll(records, []);
    assert FilterByFolder(records, name) + [] == FilterByFolder(records, name);
  }

  /** A record with the given id in the given folder and no other data. */
  function Sample(id: int, folderName: string): Record {
    var info := BasicInformation(id, "", 0, "", "", "", [], [], [], [], []);
    Record(Release(id, 0, 0, 0, info, []), folderName)
  }

  /** Records 1 (James LPs), 2 (Alice LPs) and 3 (Shared LPs), with neither
      flag set, are all candidates for "both", in the order 1, 2, 3. */
  lemma SelectionScenario()
    ensures var records := [Sample(1, JamesLPs), Sample(2, AliceLPs), Sample(3, SharedLPs)];
            SelectGroup(records, Both, false, false) == records
  {
    PoolOfThree(Sample(1, JamesLPs), Sample(2, AliceLPs), Sample(3, SharedLPs));
  }

  lemma PoolOfThree(r1: Record, r2: Record, r3: Record)
    requires r1.folderName == JamesLPs && r2.folderName == AliceLPs && r3.folderName == SharedLPs
    ensures SelectGroup([r1, r2, r3], Both, false, false) == [r1, r2, r3]
  {
    var records := [r1, r2, r3];
    assert JamesLPs != AliceLPs && JamesLPs != SharedLPs && AliceLPs != SharedLPs by {
      assert JamesLPs[0] == 'J' && AliceLPs[0] == 'A' && SharedLPs[0] == 'S';
    }
    FilterThree(r1, r2, r3, JamesLPs);
    FilterThree(r1, r2, r3, AliceLPs);
    FilterThree(r1, r2, r3, SharedLPs);
    BothOrder(records, false, false);
    assert SelectGroup(records, Both, false, false) == [r1] + [] + [r2] + [] + [r3] + [];
  }

  lemma FilterThree(r1: Record, r2: Record, r3: Record, name: string)
    ensures FilterByFolder([r1, r2, r3], name)
            == (if r1.folderName == name then [r1] else []) + (if r2.folderName == name then [r2] else [])
               + (if r3.folderName == name then [r3] else [])
  {
    FilterCons(r3, [], name);
    FilterCons(r2, [r3], name);
    FilterCons(r1, [r2, r3], name);
    assert [r3] + [] == [r3] && [r2] + [r3] == [r2, r3] && [r1] + [r2, r3] == [r1, r2, r3];
  }

  lemma FilterCons(x: Record, rest: seq<Record>, name: string)
    ensures FilterByFolder([x] + rest, name)
            == (if x.folderName == name then [x] else []) + FilterByFolder(rest, name)
  {
    assert ([x] + rest)[0] == x;
    assert ([x] + rest)[1..] == rest;
  }

  // ---------------------------------------------------------------------
  // Picking one item

  /** `intn` behaves as `rand.Intn`: for a positive bound it returns a
      number below that bound. */
  ghost predicate IsIntn(intn: nat -> nat) {
    forall n: nat :: 0 < n ==> intn(n) < n
  }

  /** An empty pool is an error; otherwise the item at the drawn index. */
  function GetRandomItem(records: seq<Record>, intn: nat -> nat): (r: Result<Record>)
    requires IsIntn(intn)
    ensures r.Err? <==> |records| == 0
    ensures r.Err? ==> r.error == NoRecords
    ensures r.Ok? ==> r.value in records
  {
    if |records| == 0 then Err(NoRecords)
    else Ok(records[intn(|records|)])
  }
}

=== FILE: sync.dfy ===
/** Keeping the cache in step with the remote collection: the staleness test
    and the full rebuild that walks every folder but "All". */
module Sync {
  import opened Failures
  import opened Models
  import opened Remote
  import opened CacheStore

  /** The reserved folder that holds every item of the other folders. */
  const AllFolder := "All"

  /** The cache is stale when its length differs from the remote count, and
      a rebuild can also be forced. */
  predicate NeedsRebuild(cacheLength: int, collectionLength: int, forceUpdate: bool) {
    cacheLength != collectionLength || forceUpdate
  }

  /** The names of the folders a rebuild fetches. */
  function FetchedNames(folders: seq<Folder>): set<string> {
    set f | f in folders && f.name != AllFolder :: f.name
  }

  /** The items of every folder but "All", folder after folder, each folder's
      items in page order. The first folder that cannot be fetched ends the
      walk with its error. */
  function Collect(folders: seq<Folder>, api: Api, fuel: nat): (r: Result<seq<Record>>)
    ensures r.Ok? ==> forall i :: 0 <= i < |r.value| ==>
              r.value[i].folderName != AllFolder && r.value[i].folderName in FetchedNames(folders)
    decreases |folders|
  {
    if |folders| == 0 then Ok([])
    else
      assert FetchedNames(folders[1..]) <= FetchedNames(folders) by {
        forall f | f in folders[1..] ensures f in folders {
        }
      }
      if folders[0].name == AllFolder then Collect(folders[1..], api, fuel)
      else
        var here :- FetchFolder(api, folders[0], fuel).items;
        var rest :- Collect(folders[1..], api, fuel);
        Ok(here + rest)
  }

  /** The folder loop of a rebuild: skip "All", fetch every other folder with
      the pagination loop and append its items. */
  method CollectRecords(folders: seq<Folder>, api: Api, fuel: nat) returns (r: Result<seq<Record>>)
    ensures r == Collect(folders, api, fuel)
    ensures r.Ok? ==> forall i :: 0 <= i < |r.value| ==> r.value[i].folderName != AllFolder
  {
    var records: seq<Record> := [];
    var i := 0;
    assert PrependItems(records, Collect(folders, api, fuel)) == Collect(folders, api, fuel) by {
      if Collect(folders, api, fuel).Ok? {
        assert records + Collect(folders, api, fuel).value == Collect(folders, api, fuel).value;
      }
    }
    while i < |folders|
      invariant 0 <= i <= |folders|
      invariant Collect(folders, api, fuel) == PrependItems(records, Collect(folders[i..], api, fuel))
    {
      var folder := folders[i];
      assert folders[i..][1..] == folders[i + 1..];
      if folder.name != AllFolder {
        var items, requests := GetFolderItems(number => api.pages(folder.id, number), folder.name, fuel);
        assert items == FetchFolder(api, folder, fuel).items;
        if items.Err? {
          return Err(items.error);
        }
        var rest := Collect(folders[i + 1..], api, fuel);
        if rest.Ok? {
          assert records + (items.value + rest.value) == (records + items.value) + rest.value;
        }
        records := records + items.value;
      }
      i := i + 1;
    }
    assert folders[i..] == [];
    assert records + [] == records;
    return Ok(records);
  }

  /** A folder named "All" contributes nothing and does not even have to
      answer, wherever it sits in the list. */
  lemma {:induction false} CollectIgnoresAll(before: seq<Folder>, all: Folder, after: seq<Folder>, api: Api, fuel: nat)
    requires all.name == AllFolder
    ensures Collect(before + [all] + after, api, fuel) == Collect(before + after, api, fuel)
    decreases |before|
  {
    if |before| == 0 {
      assert before + [all] + after == [all] + after;
      assert ([all] + after)[1..] == after;
      assert before + after == after;
    } else {
      assert (before + [all] + after)[1..] == before[1..] + [all] + after;
      assert (before + after)[1..] == before[1..] + after;
      assert (before + [all] + after)[0] == before[0] == (before + after)[0];
      CollectIgnoresAll(before[1..], all, after, api, fuel);
    }
  }

  /** A rebuild succeeds exactly when every folder but "All" can be fetched:
      one failing folder aborts the whole walk. */
  lemma {:induction false} CollectOkIff(folders: seq<Folder>, api: Api, fuel: nat)
    ensures Collect(folders, api, fuel).Ok?
            <==> forall i :: 0 <= i < |folders| && folders[i].name != AllFolder ==>
                   FetchFolder(api, folders[i], fuel).items.Ok?
    decreases |folders|
  {
    if |folders| > 0 {
      CollectOkIff(folders[1..], api, fuel);
      assert forall i :: 1 <= i < |folders| ==> folders[i] == folders[1..][i - 1];
    }
  }

  /** The folders of the list other than "All", in order. */
  function NonAll(folders: seq<Folder>): (r: seq<Folder>)
    decreases |folders|
  {
    if |folders| == 0 then []
    else (if folders[0].name == AllFolder then [] else [folders[0]]) + NonAll(folders[1..])
  }

  /** The concatenation of every listed folder's items, skipping nothing. */
  function CollectEach(folders: seq<Folder>, api: Api, fuel: nat): Result<seq<Record>>
    decreases |folders|
  {
    if |folders| == 0 then Ok([])
    else
      var here :- FetchFolder(api, folders[0], fuel).items;
      var rest :- CollectEach(folders[1..], api, fuel);
      Ok(here + rest)
  }

  /** The rebuilt list is the concatenation, in list order, of the items of
      the folders other than "All". */
  lemma {:induction false} CollectIsEachNonAll(folders: seq<Folder>, api: Api, fuel: nat)
    ensures Collect(folders, api, fuel) == CollectEach(NonAll(folders), api, fuel)
    decreases |folders|
  {
    if |folders| > 0 {
      CollectIsEachNonAll(folders[1..], api, fuel);
      if folders[0].name != AllFolder {
        var n := NonAll(folders);
        assert n == [folders[0]] + NonAll(folders[1..]);
        assert n[0] == folders[0] && n[1..] == NonAll(folders[1..]);
      } else {
        assert NonAll(folders) == NonAll(folders[1..]);
      }
    }
  }

  // ---------------------------------------------------------------------
  // Rebuild and reconcile

  /** The cache file after a sync, and whether it was rebuilt. */
  datatype Synced = Synced(file: CacheFile, rebuilt: Result<bool>)

  /** Fetch the folder list, walk the folders, and only then write the cache.
      Nothing is written unless every folder was fetched. */
  function UpdateCache(api: Api, file: CacheFile, fault: WriteFault, fuel: nat): (s: Synced)
    ensures s.rebuilt.Ok? ==> s.rebuilt.value
    ensures s.rebuilt.Ok? <==> && GetFolders(api.folderListing).Ok?
                               && Collect(GetFolders(api.folderListing).value, api, fuel).Ok?
                               && fault.NoFault?
    ensures s.rebuilt.Ok? ==>
              s.file == Stored(Collect(GetFolders(api.folderListing).value, api, fuel).value)
    ensures GetFolders(api.folderListing).Err? ==> s == Synced(file, Err(GetFolders(api.folderListing).error))
    ensures GetFolders(api.folderListing).Ok? && Collect(GetFolders(api.folderListing).value, api, fuel).Err?
            ==> s == Synced(file, Err(Collect(GetFolders(api.folderListing).value, api, fuel).error))
    ensures GetFolders(api.folderListing).Ok? && Collect(GetFolders(api.folderListing).value, api, fuel).Ok?
            ==> s.file == Save(file, Collect(GetFolders(api.folderListing).value, api, fuel).value, fault).file
    ensures GetFolders(api.folderListing).Ok? && Collect(GetFolders(api.folderListing).value, api, fuel).Ok? && !fault.NoFault?
            ==> s.rebuilt == Err(Save(file, Collect(GetFolders(api.folderListing).value, api, fuel).value, fault).outcome.error)
  {
    match GetFolders(api.folderListing)
    case Err(e) => Synced(file, Err(e))
    case Ok(folders) =>
      match Collect(folders, api, fuel)
      case Err(e) => Synced(file, Err(e))
      case Ok(records) =>
        var saved := Save(file, records, fault);
        Synced(saved.file, if saved.outcome.Ok? then Ok(true) else Err(saved.outcome.error))
  }

  /** Compare the remote count with the cache length and rebuild the cache
      when they differ or when forced. Both lengths are obtained first, and
      a failure to obtain either ends the sync before anything is fetched. */
  function Reconcile(api: Api, file: CacheFile, forceUpdate: bool, fault: WriteFault, fuel: nat): (s: Synced)
    ensures s.rebuilt.Ok? ==> file.Stored? && GetLengthOfCollection(api.summary).Ok?
    ensures s.rebuilt.Ok? ==>
              (s.rebuilt.value <==> NeedsRebuild(|file.records|, GetLengthOfCollection(api.summary).value, forceUpdate))
    ensures s.rebuilt == Ok(false) ==> s.file == file
    ensures s.file != file ==>
              file.Stored? && GetLengthOfCollection(api.summary).Ok?
              && NeedsRebuild(|file.records|, GetLengthOfCollection(api.summary).value, forceUpdate)
    ensures !file.Stored? ==> s.file == file && s.rebuilt.Err?
    ensures s.rebuilt.Ok? ==> s.file.Stored?
    ensures s.rebuilt == Ok(true) ==>
              forall i :: 0 <= i < |s.file.records| ==> s.file.records[i].folderName != AllFolder
    ensures file.Stored? && GetLengthOfCollection(api.summary).Ok?
            && !NeedsRebuild(|file.records|, GetLengthOfCollection(api.summary).value, forceUpdate)
            ==> s == Synced(file, Ok(false))
    ensures file.Stored? && GetLengthOfCollection(api.summary).Ok?
            && NeedsRebuild(|file.records|, GetLengthOfCollection(api.summary).value, forceUpdate)
            ==> s == UpdateCache(api, file, fault, fuel)
    ensures GetLengthOfCollection(api.summary).Err? ==> s == Synced(file, Err(GetLengthOfCollection(api.summary).error))
    ensures GetLengthOfCollection(api.summary).Ok? && !file.Stored? ==> s == Synced(file, Err(Load(file).error))
  {
    match GetLengthOfCollection(api.summary)
    case Err(e) => Synced(file, Err(e))
    case Ok(collectionLength) =>
      match CacheLength(file)
      case Err(e) => Synced(file, Err(e))
      case Ok(cacheLength) =>
        if NeedsRebuild(cacheLength, collectionLength, forceUpdate) then UpdateCache(api, file, fault, fuel)
        else Synced(file, Ok(false))
  }

  /** A second unforced sync against an unchanged remote does nothing, as
      long as the first left a cache whose length is the remote count. */
  lemma ReconcileTwiceIsNoop(api: Api, file: CacheFile, forceUpdate: bool, fault: WriteFault, fault': WriteFault, fuel: nat)
    requires Reconcile(api, file, forceUpdate, fault, fuel).rebuilt.Ok?
    requires var s := Reconcile(api, file, forceUpdate, fault, fuel);
             |s.file.records| == GetLengthOfCollection(api.summary).value
    ensures var s := Reconcile(api, file, forceUpdate, fault, fuel);
            Reconcile(api, s.file, false, fault', fuel) == Synced(s.file, Ok(false))
  {
  }

  /** A cache of 42 records against a remote count of 45 is rebuilt; a cache
      of 45 against 45, unforced, is left alone. */
  lemma StalenessScenarios(api: Api, record: Record, fault: WriteFault, fuel: nat)
    requires api.summary == Ok(Summary(Some(45)))
    ensures var stale := Stored(seq(42, _ => record));
            Reconcile(api, stale, false, fault, fuel) == UpdateCache(api, stale, fault, fuel)
    ensures var current := Stored(seq(45, _ => record));
            Reconcile(api, current, false, fault, fuel) == Synced(current, Ok(false))
  {
  }
}
